=== FILE: README.md ===
# storagePy request protocol, modelled in Dafny

storagePy is a small multi-tenant JSON store behind a Flask app (`app.py`).
A tenant is a Mongo document keyed by `hash`, the MD5 hex digest of its
signup email, and owns one JSON object `data`. The model covers the
request-validation and document-mutation protocol of that app:

- the fingerprint check `validate_userid` (syntax, then a find-and-update
  that stamps `last-Request`),
- the key check `validate_item`,
- the size guard `limit_content_length` in its flat and accumulative modes,
- the six fingerprint routes `get_data`, `get_item`, `update_data`,
  `update_item`, `delete_data`, `delete_item`,
- signup `create_user` with its email pattern and idempotent insert,
- the admin bulk routes `delete_all` and `reset_all`.

The collection is a map from fingerprint to record (`Tenants.Store`), and
each request is one pure step from a store to a store and a response
(`Service.Handle`). Each Mongo call is one map update. Each route is an
explicit chain of stages (`Http.Check`) in decorator order. A stage that
aborts keeps the store as the earlier stages left it, so the `last-Request`
touch survives a later 404, 413 or 500.

Files and modules:

| file | module | contents |
|---|---|---|
| optional.dfy | Optional | `Option` |
| json.dfy | JsonValue | JSON values, Python `len` on them |
| http.dfy | Http | status codes, `Method`, `Response`, stage results, `make_public_data` |
| fingerprint.dfy | Fingerprint | hex-id recognizer, default id, MD5 digest shape |
| email.dfy | EmailAddress | recognizer for the signup pattern and its language |
| tenants.dfy | Tenants | records, the store, the four Mongo updates |
| size_guard.dfy | SizeGuard | `limit_content_length` |
| handlers.dfy | Handlers | `validate_userid`, `validate_item`, the six routes |
| signup.dfy | Signup | `create_user` |
| admin.dfy | Admin | `delete_all`, `reset_all` |
| service.dfy | Service | request datatype, dispatcher, replay of a request sequence |
| protocol.dfy | Protocol | properties that relate requests to each other |

Inputs the code takes from outside become parameters. The clock
(`datetime.utcnow()`) is `now: nat`. MD5 is `md5hex: string -> string`;
where a property needs the digest shape, it asks for `IsDigest`
(32 lower-case hex characters). HTTP basic authentication is
`authorised: bool`. A request arrives already decoded (`Service.Request`).

Three behaviours of `app.py` are easy to misread, and the model keeps them as written:

- The accumulative budget is not a byte count. app.py:90 computes
  `max_length - len(data) + len(data[item])` with Python's `len`. That is
  the number of top-level keys, plus the old value's string length,
  element count or key count. So with a 1000-character string under `"a"`
  and a cap of 1024, a 1020-byte write to a new key `"b"` is admitted
  (`SizeGuard.BudgetCountsKeysNotBytes`). On a stored number, boolean or
  null, `len` raises and the request ends in a 500, even without a
  Content-Length. The model keeps that as `Err(500)`.
- The syntax test accepts upper-case hex (app.py:63, `string.hexdigits`).
  Stored digests are lower-case, so such ids get a 404.
- `$` in the email pattern (app.py:183) also matches before one final
  newline. So `"a@b.c\n"` is accepted and stored verbatim, newline
  included (`EmailAddress.Matches`).

## Model

| member | source | states |
|---|---|---|
| Fingerprint.HexDigitsAreRanges | app.py:10 | a character is in `string.hexdigits` exactly when it is 0-9, a-f or A-F |
| Fingerprint.AllHexIff | app.py:63 | the recursive recognizer agrees with `all(c in hexdigits for c in id)` at every index |
| Fingerprint.ValidIdIff | app.py:63-64 | an id passes the syntax test iff it has 32 characters, all hexadecimal |
| Fingerprint.NonHexRejected | app.py:63-64 | one non-hex character rejects an id whatever its length |
| Fingerprint.DefaultIdValid | app.py:132 | the built-in default id passes the syntax test |
| Fingerprint.DigestIsValidId | app.py:185-186 | every 32-character lower-case hex digest is a valid id |
| EmailAddress.IndexOf | app.py:183 | the first position of a character, or the length if it does not occur: nothing before it is that character |
| EmailAddress.MatchesToEndIff | app.py:183 | the recognizer accepts exactly the strings `l@d.r` with `l` over `[a-zA-Z0-9_.+-]`, `d` over `[a-zA-Z0-9-]`, `r` over `[a-zA-Z0-9-.]`, all non-empty |
| EmailAddress.MatchesIff | app.py:183-184 | `re.match` accepts exactly such an address, optionally followed by one newline |
| EmailAddress.AddressHasOneAt | app.py:183 | an address has exactly one `@` and a `.` after it |
| EmailAddress.AcceptedHasOneAt | app.py:183-184 | every string the check accepts has exactly one `@` and a `.` after it |
| Http.PublicData | app.py:99-100 | `make_public_data` builds an object with exactly one key, mapped to the given value |
| JsonValue.PyLen | app.py:90 | Python `len` of a stored value fails exactly on numbers, booleans and null; on a string, list or object it is the character, element or key count |
| Tenants.Touch | app.py:65 | the `last-Request` stamp changes that field of one record only: same keys, same data, same email and creation time |
| Tenants.SetData | app.py:151 | `$set data` replaces one tenant's data and nothing else |
| Tenants.SetItem | app.py:159 | `$set data.item` adds or overwrites one key and keeps every other key and tenant |
| Tenants.UnsetItem | app.py:174 | `$unset data.item` removes exactly that key and keeps the other values |
| SizeGuard.FreeSpace | app.py:86-92 | flat mode: the cap; accumulative: undefined exactly when the stored item has no `len`, else at least cap minus key count, and exactly that for a new key |
| SizeGuard.LimitContentLength | app.py:81-97 | 500 iff the free space is undefined; 413 iff it is defined and a given length exceeds it; proceeds iff it is defined and the length is missing or fits |
| SizeGuard.FlatGuardIff | app.py:92-94 | flat mode: 413 iff a length is given and exceeds the cap, otherwise the request proceeds |
| SizeGuard.NewKeyBudget | app.py:90-94 | accumulative mode on a new key: budget is cap minus key count; 413 iff the given length exceeds it |
| SizeGuard.ExistingKeyBudget | app.py:90-94 | accumulative mode on an existing key: budget adds the old value's length, so it is at least the new-key budget |
| SizeGuard.UnsizedItemFails | app.py:90 | a number, boolean or null under the item makes the guard fail with 500 whatever the length |
| SizeGuard.GuardMonotone | app.py:93-94 | an admitted length stays admitted when it shrinks |
| SizeGuard.BudgetCountsKeysNotBytes | app.py:90 | with 1000 characters stored under one key and a cap of 1024, a 1020-byte write to a new key is admitted |
| SizeGuard.OverwriteReclaimsOldLength | app.py:90-94 | with 1000 characters stored under "a" and a cap of 1024, a 1024-byte write to "a" is admitted while the same write to a new key is a 413 |
| Handlers.ValidateUserId | app.py:59-68 | proceeds iff the id is well formed and on record; otherwise 400 for malformed, 404 for unknown; proceeding stamps `last-Request` and changes nothing else |
| Handlers.ValidateItem | app.py:70-79 | proceeds iff the item is a key of the tenant's data, otherwise 404 |
| Handlers.GetData | app.py:132-137 | 400/404 with the store untouched, else the touched store and `{data: ...}` |
| Handlers.GetItem | app.py:139-144 | success iff the key exists, returning `{item: value}`; else 404; either way only the access time changes |
| Handlers.UpdateData | app.py:146-153 | success iff the flat 5 MiB guard admits the length; then data is the body and the reply is `{data: body}` with 201/200; a rejection is 413 with only the touch kept |
| Handlers.UpdateItem | app.py:155-161 | success iff the accumulative 5 MiB guard admits; then data gains `item := value` and the reply is `{item: value}`; a rejection carries exactly the guard's code (500 when `len` of the stored value raises, 413 when the length exceeds the budget) with only the touch kept |
| Handlers.DeleteData | app.py:163-168 | an admitted tenant keeps its record with data `{}` and gets `{result: true}` |
| Handlers.DeleteItem | app.py:170-175 | success iff the key exists, then exactly that key is removed; else 404 with only the touch kept |
| Signup.NewTenant | app.py:181-189 | the inserted record holds the address verbatim, empty data, the creation time and no `last-Request` |
| Signup.CreateUser | app.py:178-191 | 413 over 1024, 400 for a missing or refused email, both with the store unchanged; else 201 `{hash: md5}` and the only possible change is one new record `{email, data: {}, created-At}` under that hash |
| Admin.Modified | app.py:122-123 | Mongo's modified set: exactly the records whose data is not already empty |
| Admin.DeleteAll | app.py:119-123 | 401 without credential; else every record kept with data `{}`, reporting the number of records whose data was not already empty |
| Admin.ResetAll | app.py:125-129 | 401 without credential; else the store is empty and the reply counts the records removed |
| Admin.ModifiedBounded | app.py:122-123 | the reported count never exceeds the number of records, and equals it when all data was non-empty |
| Service.UserId | app.py:132-164 | the path segment when given, else the default id, which passes the syntax test |
| Service.Handle | app.py:112-191 | every fingerprint route is gated by the id check; once admitted, it changes only its own tenant and stamps it; any rejection keeps only the stamp; the two GETs only stamp, a document GET answers `{data: ...}`, item GET and DELETE succeed iff the key exists; an item GET that succeeds answers `{item: value}`; a successful write sets data to the body or `item := value` and answers it with 201 for POST and 200 for PUT; a DELETE empties the data or removes exactly the key; an authorised `delete_all` keeps every id with `{}` data and reports the modified count, an authorised `reset_all` empties the store and reports the old record count, and either is a 401 without credential; signup is 413 over 1024, 400 for a missing or refused address with the store unchanged, else 201 `{hash: md5}` adding at most the new record under that digest |
| Protocol.MalformedIdRejected | app.py:63-64 | an id of length other than 32, or with a non-hex character, is a 400 on every fingerprint route with the store unchanged |
| Protocol.WellFormedIdPasses | app.py:63-66 | a well-formed id never gets a 400; an unknown one gets a 404 with the store unchanged, a known one is stamped |
| Protocol.RootRoutesUseDefault | app.py:132-168 | GET, POST/PUT and DELETE on `/` give exactly the result of the same route on the default id, never a 400, and a 404 when that record is absent |
| Protocol.TenantRequestFrame | app.py:59-68 | a rejection before the lookup leaves the store unchanged; after it, only the tenant's data and access time may change, and rejection keeps the data |
| Protocol.ReadsOnlyTouch | app.py:132-144 | the two GET routes change only the access time |
| Protocol.MissingItemNotFound | app.py:70-77 | item GET and item DELETE on an absent key are 404 with the data unchanged |
| Protocol.PostPutSameEffect | app.py:146-161 | POST and PUT make the same store update; POST reports 201, PUT 200 |
| Protocol.UnsizedItemWriteFails | app.py:155-161 | an item write over a stored number, boolean or null is a 500 whatever the length (the guard at line 157 calls `len` on it), keeping only the touch |
| Protocol.ItemWriteSucceedsIff | app.py:155-161 | an item write succeeds iff the id is admitted and the accumulative guard admits the length |
| Protocol.NewKeyWithoutLengthAccepted | app.py:85-93 | a write to a new key without a Content-Length always succeeds |
| Protocol.ItemWriteThenRead | app.py:139-161 | after an item write, item GET returns `{item: value}` and document GET shows all other keys unchanged |
| Protocol.DocumentWriteThenRead | app.py:132-153 | after a document write, GET returns `{data: body}` |
| Protocol.ItemDeleteThenRead | app.py:170-175 | after an item delete, item GET is 404 and document GET returns the remaining keys |
| Protocol.DocumentDeleteThenRead | app.py:163-168 | after a document delete the tenant still exists and GET returns `{data: {}}` |
| Protocol.RejectedEmailChangesNothing | app.py:183-184 | a refused address is a 400 with the store unchanged |
| Protocol.AcceptedEmailShape | app.py:183-191 | a successful signup's address has exactly one `@` and a `.` after it |
| Protocol.SignupAddsAtMostOne | app.py:187-190 | signup never removes a record and adds at most one, under the digest of the address |
| Protocol.SignupIdempotent | app.py:185-191 | repeating a signup returns the same hash and leaves the store as after the first call |
| Protocol.SignupThenRead | app.py:132-137 | a new tenant is readable at its digest with data `{}` |
| Protocol.ClearAllThenRead | app.py:119-123 | after `delete_all` every tenant remains and reads as `{data: {}}` |
| Protocol.DestroyAllThenRead | app.py:125-129 | after `reset_all` every well-formed id is a 404 |
| Protocol.StepKeepsRecords | app.py:112-191 | no request but an authorised `reset_all` removes a record or changes its email or creation time |
| Protocol.ReplayKeepsRecords | app.py:112-191 | the same holds for any sequence of requests without an authorised `reset_all` |
| Protocol.ReplayKeepsIdsValid | app.py:185-190 | if MD5 yields hex digests, every key ever in the store stays a valid id, so every tenant is reachable |

## Left out

- Flask routing, `jsonify`/`make_response` and the error-handler bodies (app.py:32-50): only status codes and success bodies are kept.
- The `Access-Control-Allow-Origin` header of the signup reply (app.py:191).
- The listing route `get_all` and `make_public_user` (app.py:102-117): they serialize whole records, including the Mongo `_id` and datetimes, which are not modelled.
- The Mongo client and `.env` loading (app.py:17-29): the collection is a map, so one fingerprint names at most one record.
- Rate limiting (app.py:24) and `get_password` (app.py:53-57): library-enforced with an environment secret; admin access is a boolean.
- MD5 itself (app.py:185): a function parameter; properties that need its output shape assume `IsDigest`.
- `datetime.utcnow()` (app.py:65, 189): a clock parameter.
- Mongo dotted-path semantics for an item containing `.` or starting with `$` (app.py:159, 174): an item is one top-level key.
- JSON body parsing and content types: a whole-document body is taken to be an object, and numbers are integers.
- Concurrency between requests: each request is one atomic step.
- Handlers.UpdateData: the request body is assumed to decode to an object, while the code stores whatever `request.json` returns.

=== FILE: admin.dfy ===
/** The credential-gated bulk routes. HTTP basic authentication is reduced
    to a boolean `authorised`: a request without the right credential is a
    401 and changes nothing. */
module Admin {
  import opened JsonValue
  import opened Http
  import opened Tenants
  import opened Handlers

  /** The records `update_many({}, {'$set': {'data': {}}})` really changes:
      Mongo's `modified_count` leaves out documents whose data is already `{}`. */
  function Modified(store: Store): (ids: set<string>)
    ensures ids <= store.Keys
    ensures forall id :: id in store ==> (id in ids <==> store[id].data != map[])
  {
    set id | id in store && store[id].data != map[]
  }

  /** The body `{'result': True, 'deleted': count}`. */
  function DeletedCount(count: nat): Json {
    JObj(map["result" := JBool(true), "deleted" := JNum(count)])
  }

  /** `delete_all`: `DELETE /admin/` empties every tenant's data and keeps
      every record. */
  function DeleteAll(store: Store, authorised: bool): (s: Step)
    ensures !authorised ==> s == Step(store, Err(Unauthorized))
    ensures authorised ==>
      && s.store.Keys == store.Keys
      && (forall id :: id in store ==> s.store[id] == store[id].(data := map[]))
      && s.response == Ok(StatusOk, DeletedCount(|Modified(store)|))
  {
    if !authorised then Step(store, Err(Unauthorized))
    else
      var cleared := map id | id in store :: store[id].(data := map[]);
      Step(cleared, Ok(StatusOk, DeletedCount(|Modified(store)|)))
  }

  /** `reset_all`: `DELETE /admin/destroy` removes every record and reports
      how many there were. */
  function ResetAll(store: Store, authorised: bool): (s: Step)
    ensures !authorised ==> s == Step(store, Err(Unauthorized))
    ensures authorised ==> s.store == map[] && s.response == Ok(StatusOk, DeletedCount(|store|))
  {
    if !authorised then Step(store, Err(Unauthorized))
    else Step(map[], Ok(StatusOk, DeletedCount(|store|)))
  }

  /** The count `delete_all` reports never exceeds the number of records, and
      equals it when every record held some data. */
  lemma ModifiedBounded(store: Store)
    ensures |Modified(store)| <= |store|
    ensures (forall id :: id in store ==> store[id].data != map[]) ==> |Modified(store)| == |store|
  {
    SubsetSize(Modified(store), store.Keys);
    assert |store.Keys| == |store|;
    if forall id :: id in store ==> store[id].data != map[] {
      assert Modified(store) == store.Keys;
    }
  }

  /** A subset is no larger than its superset. */
  lemma {:induction false} SubsetSize<T>(a: set<T>, b: set<T>)
    requires a <= b
    ensures |a| <= |b|
    decreases |a|
  {
    if a != {} {
      var x :| x in a;
      SubsetSize(a - {x}, b - {x});
    }
  }
}

=== FILE: email.dfy ===
/** The signup address check: Python's `re.match` with the pattern
    `(^[a-zA-Z0-9_.+-]+@[a-zA-Z0-9-]+\.[a-zA-Z0-9-.]+$)`.

    The three bracket classes are modelled as CharClass. Inside the last one,
    `-` after the range `0-9` is a literal, so it holds letters, digits, `-`
    and `.`. The recognizer Matches reads the address the way the pattern
    forces it to be read (the first `@` ends the local part, the first `.`
    after it ends the domain label); IsAddress is the pattern's language
    stated as a decomposition, and MatchesIff ties the two together. */
module EmailAddress {

  /** The three bracket expressions of the pattern, in order. */
  datatype CharClass =
    | LocalPart    // [a-zA-Z0-9_.+-]
    | DomainLabel  // [a-zA-Z0-9-]
    | Suffix       // [a-zA-Z0-9-.]

  predicate IsAsciiAlnum(c: char) {
    'a' <= c <= 'z' || 'A' <= c <= 'Z' || '0' <= c <= '9'
  }

  predicate InClass(c: char, k: CharClass) {
    match k
    case LocalPart => IsAsciiAlnum(c) || c == '_' || c == '.' || c == '+' || c == '-'
    case DomainLabel => IsAsciiAlnum(c) || c == '-'
    case Suffix => IsAsciiAlnum(c) || c == '-' || c == '.'
  }

  /** `[k]+`: a non-empty run of characters of class k. */
  predicate Run(s: string, k: CharClass) {
    |s| > 0 && forall i :: 0 <= i < |s| ==> InClass(s[i], k)
  }

  /** The index of the first `c` in `s`, or `|s|` when there is none. */
  function IndexOf(s: string, c: char): (i: nat)
    ensures i <= |s|
    ensures i < |s| ==> s[i] == c
    ensures forall k :: 0 <= k < i ==> s[k] != c
    decreases |s|
  {
    if |s| == 0 then 0
    else if s[0] == c then 0
    else 1 + IndexOf(s[1..], c)
  }

  /** The pattern matched up to the very end of `s`. */
  predicate MatchesToEnd(s: string) {
    var at := IndexOf(s, '@');
    at < |s| && Run(s[..at], LocalPart) &&
    var rest := s[at + 1..];
    var dot := IndexOf(rest, '.');
    dot < |rest| && Run(rest[..dot], DomainLabel) && Run(rest[dot + 1..], Suffix)
  }

  /** `re.match(pattern, s)` succeeds. Without MULTILINE, `$` matches at the
      end of the string and also just before one final newline. */
  predicate Matches(s: string) {
    MatchesToEnd(s) || (|s| > 0 && s[|s| - 1] == '\n' && MatchesToEnd(s[..|s| - 1]))
  }

  /** `s` is `l@d.r` with each part a non-empty run of its class. */
  ghost predicate Shape(s: string, l: string, d: string, r: string) {
    && s == l + "@" + d + "." + r
    && Run(l, LocalPart)
    && Run(d, DomainLabel)
    && Run(r, Suffix)
  }

  /** The language of the pattern without its anchors. */
  ghost predicate IsAddress(s: string) {
    exists l, d, r :: Shape(s, l, d, r)
  }

  /** IndexOf finds a given position when no earlier position holds `c`. */
  lemma IndexOfIs(s: string, c: char, i: nat)
    requires i < |s| && s[i] == c
    requires forall k :: 0 <= k < i ==> s[k] != c
    ensures IndexOf(s, c) == i
  {
  }

  /** Every string the recognizer accepts splits as `l@d.r`. */
  lemma MatchesToEndSound(s: string)
    requires MatchesToEnd(s)
    ensures IsAddress(s)
  {
    var at := IndexOf(s, '@');
    var rest := s[at + 1..];
    var dot := IndexOf(rest, '.');
    var l, d, r := s[..at], rest[..dot], rest[dot + 1..];
    assert rest == d + "." + r;
    assert s == l + "@" + rest;
    assert Shape(s, l, d, r);
  }

  /** The part after the `@` of an address is read back as `d` and `r`. */
  lemma DomainReadBack(rest: string, d: string, r: string)
    requires rest == d + "." + r && Run(d, DomainLabel) && Run(r, Suffix)
    ensures IndexOf(rest, '.') == |d|
    ensures rest[..|d|] == d && rest[|d| + 1..] == r
  {
    IndexOfIs(rest, '.', |d|);
  }

  /** Every string of the form `l@d.r` is accepted by the recognizer. */
  lemma MatchesToEndComplete(s: string, l: string, d: string, r: string)
    requires Shape(s, l, d, r)
    ensures MatchesToEnd(s)
  {
    IndexOfIs(s, '@', |l|);
    assert s[..|l|] == l;
    var rest := s[|l| + 1..];
    assert rest == d + "." + r;
    DomainReadBack(rest, d, r);
  }

  /** The recognizer accepts exactly the strings of the form `l@d.r`. */
  lemma MatchesToEndIff(s: string)
    ensures MatchesToEnd(s) <==> IsAddress(s)
  {
    if MatchesToEnd(s) {
      MatchesToEndSound(s);
    }
    if IsAddress(s) {
      var l, d, r :| Shape(s, l, d, r);
      MatchesToEndComplete(s, l, d, r);
    }
  }

  /** The full check: an address, possibly followed by one newline. */
  lemma MatchesIff(s: string)
    ensures Matches(s) <==>
      IsAddress(s) || (|s| > 0 && s[|s| - 1] == '\n' && IsAddress(s[..|s| - 1]))
  {
    MatchesToEndIff(s);
    if |s| > 0 {
      MatchesToEndIff(s[..|s| - 1]);
    }
  }

  /** A run of a class that excludes `c` contains no `c`. */
  lemma RunExcludes(s: string, k: CharClass, c: char)
    requires forall i :: 0 <= i < |s| ==> InClass(s[i], k)
    requires !InClass(c, k)
    ensures multiset(s)[c] == 0
  {
  }

  /** An address has exactly one `@`, and a `.` somewhere after it. */
  lemma AddressHasOneAt(s: string)
    requires IsAddress(s)
    ensures multiset(s)['@'] == 1
    ensures exists j :: IndexOf(s, '@') < j < |s| && s[j] == '.'
  {
    var l, d, r :| Shape(s, l, d, r);
    RunExcludes(l, LocalPart, '@');
    RunExcludes(d, DomainLabel, '@');
    RunExcludes(r, Suffix, '@');
    assert multiset(s) == multiset(l) + multiset{'@'} + multiset(d) + multiset{'.'} + multiset(r);
    IndexOfIs(s, '@', |l|);
    assert s[|l| + 1 + |d|] == '.';
  }

  /** Every accepted address, with or without its trailing newline, has
      exactly one `@` and a `.` after it. */
  lemma AcceptedHasOneAt(s: string)
    requires Matches(s)
    ensures multiset(s)['@'] == 1
    ensures exists j :: IndexOf(s, '@') < j < |s| && s[j] == '.'
  {
    MatchesIff(s);
    if IsAddress(s) {
      AddressHasOneAt(s);
    } else {
      var t := s[..|s| - 1];
      AddressHasOneAt(t);
      NewlineKeepsAt(s, t);
    }
  }

  /** Appending the newline that `$` tolerates adds no `@` and moves no `.`. */
  lemma NewlineKeepsAt(s: string, t: string)
    requires |s| > 0 && t == s[..|s| - 1] && s[|s| - 1] == '\n'
    requires multiset(t)['@'] == 1
    requires exists j :: IndexOf(t, '@') < j < |t| && t[j] == '.'
    ensures multiset(s)['@'] == 1
    ensures exists j :: IndexOf(s, '@') < j < |s| && s[j] == '.'
  {
    assert s == t + "\n";
    assert multiset(s) == multiset(t) + multiset{'\n'};
    var j :| IndexOf(t, '@') < j < |t| && t[j] == '.';
    var at := IndexOf(t, '@');
    IndexOfIs(s, '@', at);
    assert s[j] == '.';
  }
}

=== FILE: fingerprint.dfy ===
/** The syntax of a tenant fingerprint: 32 characters drawn from Python's
    `string.hexdigits`, either case. */
module Fingerprint {

  /** Python's `string.hexdigits` */
  const HexDigits: string := "0123456789abcdefABCDEF"

  /** The number of characters of a fingerprint (an MD5 digest in hex). */
  const IdLength: nat := 32

  /** The id used by the routes `/` when the path names no fingerprint. */
  const DefaultId: string := "4bd19e518d90d816fb283cf09d6498bf"

  /** Membership in `HexDigits`, written as character ranges (see HexDigitsAreRanges). */
  predicate IsHexDigit(c: char) {
    '0' <= c <= '9' || 'a' <= c <= 'f' || 'A' <= c <= 'F'
  }

  /** The ranges of IsHexDigit are exactly the characters of `string.hexdigits`. */
  lemma HexDigitsAreRanges(c: char)
    ensures IsHexDigit(c) <==> c in HexDigits
  {
  }

  /** Recognizer for `all(c in hexdigits for c in s)`, scanning from index `i`. */
  predicate AllHexFrom(s: string, i: nat)
    requires i <= |s|
    decreases |s| - i
  {
    i == |s| || (IsHexDigit(s[i]) && AllHexFrom(s, i + 1))
  }

  /** The scan over the whole string. */
  predicate AllHex(s: string) {
    AllHexFrom(s, 0)
  }

  /** The syntax test of `validate_userid`. */
  predicate ValidId(id: string) {
    AllHex(id) && |id| == IdLength
  }

  /** `hexdigest()` of MD5: 32 lower-case hexadecimal characters. */
  ghost predicate IsDigest(s: string) {
    |s| == IdLength && forall i :: 0 <= i < |s| ==> s[i] in "0123456789abcdef"
  }

  /** The scan from `i` agrees with the index-wise reading of `all(...)`. */
  lemma {:induction false} AllHexFromIff(s: string, i: nat)
    requires i <= |s|
    ensures AllHexFrom(s, i) <==> forall k :: i <= k < |s| ==> IsHexDigit(s[k])
    decreases |s| - i
  {
    if i < |s| {
      AllHexFromIff(s, i + 1);
    }
  }

  /** The recognizer agrees with the index-wise reading of `all(...)`. */
  lemma AllHexIff(s: string)
    ensures AllHex(s) <==> forall i :: 0 <= i < |s| ==> IsHexDigit(s[i])
  {
    AllHexFromIff(s, 0);
  }

  /** An id passes the syntax test exactly when it has 32 characters, all hexadecimal. */
  lemma ValidIdIff(id: string)
    ensures ValidId(id) <==> |id| == 32 && forall i :: 0 <= i < |id| ==> IsHexDigit(id[i])
  {
    AllHexIff(id);
  }

  /** One character outside 0-9a-fA-F is enough to reject an id, whatever its length. */
  lemma NonHexRejected(id: string, i: nat)
    requires i < |id| && !IsHexDigit(id[i])
    ensures !ValidId(id)
  {
    AllHexIff(id);
  }

  /** The built-in default id passes the syntax test. */
  lemma DefaultIdValid()
    ensures ValidId(DefaultId)
  {
    forall i | 0 <= i < |DefaultId|
      ensures IsHexDigit(DefaultId[i])
    {
    }
    AllHexIff(DefaultId);
  }

  /** Every MD5 hex digest passes the syntax test, so a tenant created by
      signup is reachable through the fingerprint routes. */
  lemma DigestIsValidId(s: string)
    requires IsDigest(s)
    ensures ValidId(s)
  {
    AllHexIff(s);
  }
}

=== FILE: handlers.dfy ===
/** The six fingerprint routes. Each is an ordered chain of stages
    (`validate_userid`, then `validate_item` or `limit_content_length`,
    then the store update), written as a match on each stage's Check.
    A stage that aborts ends the request with the store as the earlier
    stages left it: in particular the `last-Request` touch of
    `validate_userid` survives a later 404, 413 or 500. */
module Handlers {
  import opened JsonValue
  import opened Http
  import opened Fingerprint
  import opened Tenants
  import opened SizeGuard
  import opened Optional

  /** `5 * 1024 * 1024`, the cap of both data-writing routes. */
  const MaxDataLength: int := 5 * 1024 * 1024

  /** One request: the store after it and the response. */
  datatype Step = Step(store: Store, response: Response)

  /** The id passes `validate_userid`: well formed and on record. */
  ghost predicate Admitted(store: Store, id: string) {
    ValidId(id) && id in store
  }

  /** What `validate_userid` promises every route: a malformed id is a 400
      and an unknown one a 404, both with the store untouched. */
  ghost predicate Gated(store: Store, id: string, s: Step) {
    && (!ValidId(id) ==> s == Step(store, Err(BadRequest)))
    && (ValidId(id) && id !in store ==> s == Step(store, Err(NotFound)))
  }

  /** `validate_userid`: the syntax test, then one find-and-update that both
      looks the tenant up and stamps `last-Request`. */
  function ValidateUserId(store: Store, id: string, now: nat): (r: Check<Store>)
    ensures r.Proceed? <==> Admitted(store, id)
    ensures r.Abort? ==> r.code == (if ValidId(id) then NotFound else BadRequest)
    ensures r.Proceed? ==> Touched(store, r.value, id, now)
  {
    if !ValidId(id) then Abort(BadRequest)
    else if id !in store then Abort(NotFound)
    else Proceed(Touch(store, id, now))
  }

  /** `validate_item`: the item must already be a key of the tenant's data. */
  function ValidateItem(store: Store, id: string, item: string): (r: Check<()>)
    requires id in store
    ensures r.Proceed? <==> item in store[id].data
    ensures r.Abort? ==> r.code == NotFound
  {
    if item in store[id].data then Proceed(()) else Abort(NotFound)
  }

  /** `get_data`: `GET /<user_id>` returns `{data: ...}`. */
  function GetData(store: Store, id: string, now: nat): (s: Step)
    ensures Gated(store, id, s)
    ensures Admitted(store, id) ==> Touched(store, s.store, id, now)
    ensures Admitted(store, id) ==> s.response == Ok(StatusOk, PublicData("data", JObj(store[id].data)))
  {
    match ValidateUserId(store, id, now)
    case Abort(code) => Step(store, Err(code))
    case Proceed(touched) =>
      Step(touched, Ok(StatusOk, PublicData("data", JObj(touched[id].data))))
  }

  /** `get_item`: `GET /<user_id>/<item>` returns `{item: value}`, or 404 when
      the key is absent. */
  function GetItem(store: Store, id: string, item: string, now: nat): (s: Step)
    ensures Gated(store, id, s)
    ensures Admitted(store, id) ==> Touched(store, s.store, id, now)
    ensures Admitted(store, id) ==> (s.response.Ok? <==> item in store[id].data)
    ensures Admitted(store, id) && item in store[id].data ==>
      s.response == Ok(StatusOk, PublicData(item, store[id].data[item]))
    ensures Admitted(store, id) && item !in store[id].data ==> s.response == Err(NotFound)
  {
    match ValidateUserId(store, id, now)
    case Abort(code) => Step(store, Err(code))
    case Proceed(touched) =>
      match ValidateItem(touched, id, item)
      case Abort(code) => Step(touched, Err(code))
      case Proceed(_) =>
        Step(touched, Ok(StatusOk, PublicData(item, touched[id].data[item])))
  }

  /** `update_data`: `POST`/`PUT /<user_id>` replaces the whole data map,
      under the flat 5 MiB guard. */
  function UpdateData(
    store: Store, id: string, verb: Method, contentLength: Option<nat>,
    document: map<string, Json>, now: nat): (s: Step)
    ensures Gated(store, id, s)
    ensures Admitted(store, id) ==> Accessed(store, s.store, id, now)
    ensures Admitted(store, id) ==> (s.response.Ok? <==> Fits(contentLength, MaxDataLength))
    ensures Admitted(store, id) && s.response.Ok? ==>
      && s.store[id].data == document
      && s.response == Ok(SuccessStatus(verb), PublicData("data", JObj(document)))
    ensures Admitted(store, id) && s.response.Err? ==>
      s.response == Err(PayloadTooLarge) && s.store == Touch(store, id, now)
  {
    match ValidateUserId(store, id, now)
    case Abort(code) => Step(store, Err(code))
    case Proceed(touched) =>
      match LimitContentLength(MaxDataLength, Flat, contentLength)
      case Abort(code) => Step(touched, Err(code))
      case Proceed(_) =>
        var written := SetData(touched, id, document);
        Step(written, Ok(SuccessStatus(verb), PublicData("data", JObj(written[id].data))))
  }

  /** `update_item`: `POST`/`PUT /<user_id>/<item>` sets one key, creating it
      if absent, under the accumulative 5 MiB guard. The guard reads the data
      as `validate_userid` left it. */
  function UpdateItem(
    store: Store, id: string, item: string, verb: Method, contentLength: Option<nat>,
    value: Json, now: nat): (s: Step)
    ensures Gated(store, id, s)
    ensures Admitted(store, id) ==> Accessed(store, s.store, id, now)
    ensures Admitted(store, id) ==>
      (s.response.Ok? <==> LimitContentLength(MaxDataLength, Accumulative(store[id].data, item), contentLength).Proceed?)
    ensures Admitted(store, id) && s.response.Ok? ==>
      && s.store[id].data == store[id].data[item := value]
      && s.response == Ok(SuccessStatus(verb), PublicData(item, value))
    // The first conjunct is a corollary of the second and the guard's contract.
    ensures Admitted(store, id) && s.response.Err? ==>
      && (s.response.code == PayloadTooLarge || s.response.code == InternalError)
      && s.response == Err(LimitContentLength(MaxDataLength, Accumulative(store[id].data, item), contentLength).code)
      && s.store == Touch(store, id, now)
  {
    match ValidateUserId(store, id, now)
    case Abort(code) => Step(store, Err(code))
    case Proceed(touched) =>
      match LimitContentLength(MaxDataLength, Accumulative(touched[id].data, item), contentLength)
      case Abort(code) => Step(touched, Err(code))
      case Proceed(_) =>
        var written := SetItem(touched, id, item, value);
        Step(written, Ok(SuccessStatus(verb), PublicData(item, written[id].data[item])))
  }

  /** `delete_data`: `DELETE /<user_id>` empties the data map and keeps the record. */
  function DeleteData(store: Store, id: string, now: nat): (s: Step)
    ensures Gated(store, id, s)
    ensures Admitted(store, id) ==> Accessed(store, s.store, id, now)
    ensures Admitted(store, id) ==> s.store[id].data == map[] && s.response == Ok(StatusOk, Acknowledged)
  {
    match ValidateUserId(store, id, now)
    case Abort(code) => Step(store, Err(code))
    case Proceed(touched) =>
      Step(SetData(touched, id, map[]), Ok(StatusOk, Acknowledged))
  }

  /** `delete_item`: `DELETE /<user_id>/<item>` removes one existing key. */
  function DeleteItem(store: Store, id: string, item: string, now: nat): (s: Step)
    ensures Gated(store, id, s)
    ensures Admitted(store, id) ==> Accessed(store, s.store, id, now)
    ensures Admitted(store, id) ==> (s.response.Ok? <==> item in store[id].data)
    ensures Admitted(store, id) && s.response.Ok? ==>
      s.store[id].data == store[id].data - {item} && s.response == Ok(StatusOk, Acknowledged)
    ensures Admitted(store, id) && s.response.Err? ==>
      s.response == Err(NotFound) && s.store == Touch(store, id, now)
  {
    match ValidateUserId(store, id, now)
    case Abort(code) => Step(store, Err(code))
    case Proceed(touched) =>
      match ValidateItem(touched, id, item)
      case Abort(code) => Step(touched, Err(code))
      case Proceed(_) =>
        Step(UnsetItem(touched, id, item), Ok(StatusOk, Acknowledged))
  }
}

=== FILE: http.dfy ===
/** Status codes, request methods and the response shape of the HTTP surface. */
module Http {
  import opened JsonValue

  const StatusOk: nat := 200
  const StatusCreated: nat := 201
  const BadRequest: nat := 400
  const Unauthorized: nat := 401
  const NotFound: nat := 404
  const PayloadTooLarge: nat := 413
  /** An uncaught exception inside a handler (Flask answers 500). */
  const InternalError: nat := 500

  /** The two write methods; they differ only in the reported status. */
  datatype Method = Post | Put

  function SuccessStatus(m: Method): nat {
    if m == Post then StatusCreated else StatusOk
  }

  /** A response: a success status with a JSON body, or an `abort(code)`.
      The error bodies are fixed per code and are not modelled. */
  datatype Response = Ok(status: nat, body: Json) | Err(code: nat)

  /** The outcome of one request-validation stage: go on with a value, or abort. */
  datatype Check<+T> = Proceed(value: T) | Abort(code: nat)

  /** `make_public_data`: the single-key object `{key: value}`. */
  function PublicData(key: string, value: Json): (r: Json)
    ensures r.JObj? && r.fields.Keys == {key} && r.fields[key] == value
  {
    JObj(map[key := value])
  }

  /** The `{'result': True}` acknowledgement of the delete routes. */
  const Acknowledged: Json := JObj(map["result" := JBool(true)])
}

=== FILE: json.dfy ===
/** JSON values as stored in a tenant's `data` map and returned in response bodies. */
module JsonValue {
  import opened Optional

  /** Numbers are integers only; floating point is not modelled. */
  datatype Json =
    | JNull
    | JBool(b: bool)
    | JNum(n: int)
    | JStr(s: string)
    | JArr(items: seq<Json>)
    | JObj(fields: map<string, Json>)

  /** Python's built-in `len` applied to a decoded JSON value: the length of a
      string, the number of elements of a list, the number of keys of a dict.
      On a number, a boolean or None Python raises a TypeError, modelled as None. */
  function PyLen(v: Json): (r: Option<nat>)
    ensures r.None? <==> (v.JNull? || v.JBool? || v.JNum?)
    ensures v.JStr? ==> r == Some(|v.s|)
    ensures v.JArr? ==> r == Some(|v.items|)
    ensures v.JObj? ==> r == Some(|v.fields.Keys|)
  {
    match v
    case JStr(s) => Some(|s|)
    case JArr(items) => Some(|items|)
    case JObj(fields) => Some(|fields|)
    case _ => None
  }
}

=== FILE: optional.dfy ===
/** An optional value: the Python `None` of a missing header, form field or result. */
module Optional {

  datatype Option<+T> = None | Some(value: T) {

    /** The value in Some, or `default` if None */
    function GetOr(default: T): T {
      match this
      case Some(v) => v
      case None => default
    }
  }
}

=== FILE: protocol.dfy ===
/** Properties of the request protocol that relate several requests, or a
    request and its effect on the store. */
module Protocol {
  import opened Optional
  import opened JsonValue
  import opened Http
  import opened Fingerprint
  import opened EmailAddress
  import opened Tenants
  import opened SizeGuard
  import opened Handlers
  import opened Service
  import Signup
  import Admin

  // ---- validate_userid -------------------------------------------------

  /** A malformed id is a 400 on every fingerprint route, and the store is
      not looked at. */
  lemma MalformedIdRejected(store: Store, req: Request, now: nat, md5hex: string -> string)
    requires req.TenantScoped()
    requires |req.UserIdOf()| != IdLength || exists i :: 0 <= i < |req.UserIdOf()| && !IsHexDigit(req.UserIdOf()[i])
    ensures Handle(store, req, now, md5hex) == Step(store, Err(BadRequest))
  {
    ValidIdIff(req.UserIdOf());
  }

  /** A well-formed id never draws a 400 from a fingerprint route: on record
      it is touched, otherwise it is a 404. */
  lemma WellFormedIdPasses(store: Store, req: Request, now: nat, md5hex: string -> string)
    requires req.TenantScoped() && ValidId(req.UserIdOf())
    ensures Handle(store, req, now, md5hex).response != Err(BadRequest)
    ensures req.UserIdOf() !in store ==> Handle(store, req, now, md5hex) == Step(store, Err(NotFound))
    ensures req.UserIdOf() in store ==> Handle(store, req, now, md5hex).store[req.UserIdOf()].lastRequest == Some(now)
  {
  }

  /** The three routes on `/` behave exactly as the same routes on the
      built-in id, and they never draw a 400. */
  lemma RootRoutesUseDefault(
    store: Store, verb: Method, contentLength: Option<nat>, document: map<string, Json>,
    now: nat, md5hex: string -> string)
    ensures Handle(store, ReadDocument(None), now, md5hex) ==
            Handle(store, ReadDocument(Some(DefaultId)), now, md5hex)
    ensures Handle(store, WriteDocument(None, verb, contentLength, document), now, md5hex) ==
            Handle(store, WriteDocument(Some(DefaultId), verb, contentLength, document), now, md5hex)
    ensures Handle(store, ClearDocument(None), now, md5hex) ==
            Handle(store, ClearDocument(Some(DefaultId)), now, md5hex)
    ensures Handle(store, ReadDocument(None), now, md5hex).response != Err(BadRequest)
    ensures Handle(store, WriteDocument(None, verb, contentLength, document), now, md5hex).response != Err(BadRequest)
    ensures Handle(store, ClearDocument(None), now, md5hex).response != Err(BadRequest)
    ensures DefaultId !in store ==>
      && Handle(store, ReadDocument(None), now, md5hex) == Step(store, Err(NotFound))
      && Handle(store, WriteDocument(None, verb, contentLength, document), now, md5hex) == Step(store, Err(NotFound))
      && Handle(store, ClearDocument(None), now, md5hex) == Step(store, Err(NotFound))
  {
    assert UserId(None) == DefaultId == UserId(Some(DefaultId));
  }

  /** Whatever the route and the outcome, a request on one fingerprint
      leaves every other tenant as it was and never alters the email or the
      creation time; once the tenant is found its access time is `now`,
      even when a later stage rejects. */
  lemma TenantRequestFrame(store: Store, req: Request, now: nat, md5hex: string -> string)
    requires req.TenantScoped()
    ensures var s := Handle(store, req, now, md5hex);
      && (s.response.Err? && !Admitted(store, req.UserIdOf()) ==> s.store == store)
      && (Admitted(store, req.UserIdOf()) ==> Accessed(store, s.store, req.UserIdOf(), now))
      && (Admitted(store, req.UserIdOf()) && s.response.Err? ==> Touched(store, s.store, req.UserIdOf(), now))
  {
  }

  // ---- reads -----------------------------------------------------------

  /** The two GET routes change nothing but the access time. */
  lemma ReadsOnlyTouch(store: Store, id: string, item: string, now: nat)
    requires Admitted(store, id)
    ensures GetData(store, id, now).store == Touch(store, id, now)
    ensures GetItem(store, id, item, now).store == Touch(store, id, now)
  {
  }

  /** Item GET and item DELETE on an absent key are a 404 that leaves the
      data as it was. */
  lemma MissingItemNotFound(store: Store, id: string, item: string, now: nat)
    requires Admitted(store, id) && item !in store[id].data
    ensures GetItem(store, id, item, now) == Step(Touch(store, id, now), Err(NotFound))
    ensures DeleteItem(store, id, item, now) == Step(Touch(store, id, now), Err(NotFound))
  {
  }

  // ---- writes ------------------------------------------------------------

  /** POST and PUT perform the same store update and differ only in status. */
  lemma PostPutSameEffect(
    store: Store, id: string, item: string, contentLength: Option<nat>,
    document: map<string, Json>, value: Json, now: nat)
    ensures UpdateData(store, id, Post, contentLength, document, now).store ==
            UpdateData(store, id, Put, contentLength, document, now).store
    ensures UpdateItem(store, id, item, Post, contentLength, value, now).store ==
            UpdateItem(store, id, item, Put, contentLength, value, now).store
    ensures UpdateItem(store, id, item, Post, contentLength, value, now).response.Ok? ==>
      && UpdateItem(store, id, item, Post, contentLength, value, now).response.status == StatusCreated
      && UpdateItem(store, id, item, Put, contentLength, value, now).response.status == StatusOk
    ensures UpdateData(store, id, Post, contentLength, document, now).response.Ok? ==>
      && UpdateData(store, id, Post, contentLength, document, now).response.status == StatusCreated
      && UpdateData(store, id, Put, contentLength, document, now).response.status == StatusOk
  {
  }

  /** An item write goes through exactly when the id is admitted and the
      accumulative guard admits the declared length. */
  lemma ItemWriteSucceedsIff(
    store: Store, id: string, item: string, verb: Method, contentLength: Option<nat>,
    value: Json, now: nat)
    ensures UpdateItem(store, id, item, verb, contentLength, value, now).response.Ok? <==>
      && Admitted(store, id)
      && FreeSpace(MaxDataLength, Accumulative(store[id].data, item)).Some?
      && Fits(contentLength, FreeSpace(MaxDataLength, Accumulative(store[id].data, item)).value)
  {
  }

  /** An item write over a stored number, boolean or null is a 500, not a
      413, whatever the Content-Length: `len` of the old value raises before
      any size is compared. Only the access stamp survives. */
  lemma UnsizedItemWriteFails(
    store: Store, id: string, item: string, verb: Method, contentLength: Option<nat>,
    value: Json, now: nat)
    requires Admitted(store, id) && item in store[id].data
    requires store[id].data[item].JNum? || store[id].data[item].JBool? || store[id].data[item].JNull?
    ensures UpdateItem(store, id, item, verb, contentLength, value, now) == Step(Touch(store, id, now), Err(InternalError))
  {
  }

  /** A write to a new key with no Content-Length always goes through for a
      tenant on record. */
  lemma NewKeyWithoutLengthAccepted(
    store: Store, id: string, item: string, verb: Method, value: Json, now: nat)
    requires Admitted(store, id) && item !in store[id].data
    ensures UpdateItem(store, id, item, verb, None, value, now).response == Ok(SuccessStatus(verb), PublicData(item, value))
  {
  }

  /** Item write, then item read: the read returns `{item: value}`, and the
      whole-document read shows every other key unchanged. */
  lemma ItemWriteThenRead(
    store: Store, id: string, item: string, verb: Method, contentLength: Option<nat>,
    value: Json, t1: nat, t2: nat)
    requires UpdateItem(store, id, item, verb, contentLength, value, t1).response.Ok?
    ensures var written := UpdateItem(store, id, item, verb, contentLength, value, t1).store;
      && GetItem(written, id, item, t2).response == Ok(StatusOk, PublicData(item, value))
      && GetData(written, id, t2).response == Ok(StatusOk, PublicData("data", JObj(store[id].data[item := value])))
  {
  }

  /** Whole-document write, then read: the read returns the body as written. */
  lemma DocumentWriteThenRead(
    store: Store, id: string, verb: Method, contentLength: Option<nat>,
    document: map<string, Json>, t1: nat, t2: nat)
    requires UpdateData(store, id, verb, contentLength, document, t1).response.Ok?
    ensures var written := UpdateData(store, id, verb, contentLength, document, t1).store;
      GetData(written, id, t2).response == Ok(StatusOk, PublicData("data", JObj(document)))
  {
  }

  /** Item delete, then reads: the item is a 404, and the document read still
      succeeds with the remaining keys. */
  lemma ItemDeleteThenRead(store: Store, id: string, item: string, t1: nat, t2: nat)
    requires DeleteItem(store, id, item, t1).response.Ok?
    ensures var removed := DeleteItem(store, id, item, t1).store;
      && GetItem(removed, id, item, t2).response == Err(NotFound)
      && GetData(removed, id, t2).response == Ok(StatusOk, PublicData("data", JObj(store[id].data - {item})))
  {
  }

  /** Whole-document delete keeps the tenant: a later read is a 200 with
      empty data, not a 404. */
  lemma DocumentDeleteThenRead(store: Store, id: string, t1: nat, t2: nat)
    requires Admitted(store, id)
    ensures var cleared := DeleteData(store, id, t1).store;
      && id in cleared
      && GetData(cleared, id, t2).response == Ok(StatusOk, PublicData("data", JObj(map[])))
  {
  }

  // ---- signup ------------------------------------------------------------

  /** An address the pattern refuses is a 400 and writes nothing. */
  lemma RejectedEmailChangesNothing(
    store: Store, email: string, contentLength: Option<nat>, now: nat, md5hex: string -> string)
    requires Fits(contentLength, Signup.MaxFormLength) && !Matches(email)
    ensures Signup.CreateUser(store, Some(email), contentLength, now, md5hex) == Step(store, Err(BadRequest))
  {
  }

  /** Every address the pattern accepts has exactly one `@` and a `.` after it. */
  lemma AcceptedEmailShape(
    store: Store, email: string, contentLength: Option<nat>, now: nat, md5hex: string -> string)
    requires Signup.CreateUser(store, Some(email), contentLength, now, md5hex).response.Ok?
    ensures multiset(email)['@'] == 1
    ensures exists j :: IndexOf(email, '@') < j < |email| && email[j] == '.'
  {
    AcceptedHasOneAt(email);
  }

  /** Signup adds at most one record, and only under the digest of the address. */
  lemma SignupAddsAtMostOne(
    store: Store, email: Option<string>, contentLength: Option<nat>, now: nat, md5hex: string -> string)
    ensures var s := Signup.CreateUser(store, email, contentLength, now, md5hex);
      && store.Keys <= s.store.Keys
      && |s.store| <= |store| + 1
      && (forall k :: k in s.store && k !in store ==> email.Some? && k == md5hex(email.value))
  {
    var s := Signup.CreateUser(store, email, contentLength, now, md5hex);
    if s.response.Ok? {
      var hash := md5hex(email.value);
      assert s.store.Keys == store.Keys + {hash};
      assert |store.Keys + {hash}| <= |store.Keys| + 1;
    }
  }

  /** Signing up twice with the same address: the second call returns the same
      hash and leaves the store exactly as the first call left it. */
  lemma SignupIdempotent(
    store: Store, email: string, cl1: Option<nat>, cl2: Option<nat>, t1: nat, t2: nat,
    md5hex: string -> string)
    requires Signup.CreateUser(store, Some(email), cl1, t1, md5hex).response.Ok?
    requires Fits(cl2, Signup.MaxFormLength)
    ensures var first := Signup.CreateUser(store, Some(email), cl1, t1, md5hex);
      var second := Signup.CreateUser(first.store, Some(email), cl2, t2, md5hex);
      second == Step(first.store, first.response)
  {
  }

  /** A new signup is reachable: a GET on the returned digest finds the new
      tenant with empty data. */
  lemma SignupThenRead(
    store: Store, email: string, contentLength: Option<nat>, t1: nat, t2: nat,
    md5hex: string -> string)
    requires Signup.CreateUser(store, Some(email), contentLength, t1, md5hex).response.Ok?
    requires md5hex(email) !in store && IsDigest(md5hex(email))
    ensures var created := Signup.CreateUser(store, Some(email), contentLength, t1, md5hex).store;
      GetData(created, md5hex(email), t2) ==
        Step(created[md5hex(email) := Signup.NewTenant(email, t1).(lastRequest := Some(t2))],
             Ok(StatusOk, PublicData("data", JObj(map[]))))
  {
    DigestIsValidId(md5hex(email));
  }

  // ---- admin -------------------------------------------------------------

  /** After `delete_all` every tenant is still there and reads as empty data. */
  lemma ClearAllThenRead(store: Store, id: string, t: nat)
    requires Admitted(store, id)
    ensures GetData(Admin.DeleteAll(store, true).store, id, t).response ==
      Ok(StatusOk, PublicData("data", JObj(map[])))
    ensures |Admin.DeleteAll(store, true).store| == |store|
  {
    assert Admin.DeleteAll(store, true).store.Keys == store.Keys;
  }

  /** After `reset_all` every well-formed id is a 404. */
  lemma DestroyAllThenRead(store: Store, id: string, t: nat)
    requires ValidId(id)
    ensures GetData(Admin.ResetAll(store, true).store, id, t) == Step(map[], Err(NotFound))
  {
  }

  // ---- sequences of requests ---------------------------------------------

  /** No request other than an authorised `reset_all` removes a record or
      rewrites its email or creation time. */
  lemma StepKeepsRecords(store: Store, req: Request, now: nat, md5hex: string -> string)
    requires !(req.DestroyAll? && req.authorised)
    ensures var s := Handle(store, req, now, md5hex);
      && store.Keys <= s.store.Keys
      && forall k :: k in store ==> SameIdentity(store[k], s.store[k])
  {
  }

  /** Across any sequence of requests without an authorised `reset_all`,
      records are never lost and their identity never changes. */
  lemma {:induction false} ReplayKeepsRecords(store: Store, trace: seq<Event>, md5hex: string -> string)
    requires forall i :: 0 <= i < |trace| ==> !(trace[i].request.DestroyAll? && trace[i].request.authorised)
    ensures store.Keys <= Replay(store, trace, md5hex).Keys
    ensures forall k :: k in store ==> SameIdentity(store[k], Replay(store, trace, md5hex)[k])
    decreases |trace|
  {
    if |trace| > 0 {
      var next := Handle(store, trace[0].request, trace[0].now, md5hex).store;
      StepKeepsRecords(store, trace[0].request, trace[0].now, md5hex);
      ReplayKeepsRecords(next, trace[1..], md5hex);
    }
  }

  /** If MD5 always yields a hex digest, every record ever created is
      reachable through the fingerprint routes: all keys stay valid ids. */
  lemma {:induction false} ReplayKeepsIdsValid(store: Store, trace: seq<Event>, md5hex: string -> string)
    requires forall e :: IsDigest(md5hex(e))
    requires forall k :: k in store ==> ValidId(k)
    ensures forall k :: k in Replay(store, trace, md5hex) ==> ValidId(k)
    decreases |trace|
  {
    if |trace| > 0 {
      var next := Handle(store, trace[0].request, trace[0].now, md5hex).store;
      forall k | k in next
        ensures ValidId(k)
      {
        if k !in store {
          DigestIsValidId(k);
        }
      }
      ReplayKeepsIdsValid(next, trace[1..], md5hex);
    }
  }
}

=== FILE: service.dfy ===
/** The whole HTTP surface as one state machine: each request is one step
    from a store to a store and a response. Routing and body decoding are
    outside the model, so a request arrives already decoded. */
module Service {
  import opened Optional
  import opened JsonValue
  import opened Http
  import opened Fingerprint
  import opened Tenants
  import opened SizeGuard
  import opened Handlers
  import Signup
  import Admin

  /** One decoded request per route. */
  datatype Request =
    | ReadDocument(segment: Option<string>)
    | ReadItem(id: string, item: string)
    | WriteDocument(segment: Option<string>, verb: Method, contentLength: Option<nat>, document: map<string, Json>)
    | WriteItem(id: string, item: string, verb: Method, contentLength: Option<nat>, value: Json)
    | ClearDocument(segment: Option<string>)
    | RemoveItem(id: string, item: string)
    | SignUp(email: Option<string>, contentLength: Option<nat>)
    | ClearAll(authorised: bool)
    | DestroyAll(authorised: bool)
  {
    /** The routes that carry a fingerprint and pass `validate_userid`. */
    predicate TenantScoped() {
      !(SignUp? || ClearAll? || DestroyAll?)
    }

    /** The `user_id` a fingerprint route hands to its handler. The three
        whole-document routes also answer on `/`, where no segment is given. */
    function UserIdOf(): string
      requires TenantScoped()
    {
      if ReadDocument? || WriteDocument? || ClearDocument? then UserId(segment) else id
    }
  }

  /** A request and the clock reading `datetime.utcnow()` returns while it runs. */
  datatype Event = Event(request: Request, now: nat)

  /** The `user_id` Flask passes: the path segment, or the default id on the
      routes `/` (the `defaults=` of the three root routes). */
  function UserId(segment: Option<string>): (id: string)
    ensures segment.Some? ==> id == segment.value
    ensures segment.None? ==> id == DefaultId && ValidId(id)
  {
    DefaultIdValid();
    segment.GetOr(DefaultId)
  }

  /** One request. `md5hex` stands for the MD5 hex digest used by signup. */
  function Handle(store: Store, req: Request, now: nat, md5hex: string -> string): (s: Step)
    ensures req.TenantScoped() ==> Gated(store, req.UserIdOf(), s)
    ensures req.TenantScoped() && Admitted(store, req.UserIdOf()) ==> Accessed(store, s.store, req.UserIdOf(), now)
    ensures req.TenantScoped() && Admitted(store, req.UserIdOf()) && s.response.Err? ==>
      s.store == Touch(store, req.UserIdOf(), now)
    // Which route answers: reads only stamp, and each write has its own effect.
    ensures (req.ReadDocument? || req.ReadItem?) && Admitted(store, req.UserIdOf()) ==>
      s.store == Touch(store, req.UserIdOf(), now)
    ensures req.ReadDocument? && Admitted(store, req.UserIdOf()) ==>
      s.response == Ok(StatusOk, PublicData("data", JObj(store[req.UserIdOf()].data)))
    ensures req.ReadItem? && Admitted(store, req.id) ==>
      (s.response.Ok? <==> req.item in store[req.id].data)
    ensures req.ReadItem? && Admitted(store, req.id) && req.item in store[req.id].data ==>
      s.response == Ok(StatusOk, PublicData(req.item, store[req.id].data[req.item]))
    ensures req.WriteDocument? && Admitted(store, req.UserIdOf()) && s.response.Ok? ==>
      && s.store[req.UserIdOf()].data == req.document
      && s.response == Ok(SuccessStatus(req.verb), PublicData("data", JObj(req.document)))
    ensures req.WriteItem? && Admitted(store, req.id) && s.response.Ok? ==>
      && s.store[req.id].data == store[req.id].data[req.item := req.value]
      && s.response == Ok(SuccessStatus(req.verb), PublicData(req.item, req.value))
    ensures req.ClearDocument? && Admitted(store, req.UserIdOf()) ==>
      s.store[req.UserIdOf()].data == map[] && s.response == Ok(StatusOk, Acknowledged)
    ensures req.RemoveItem? && Admitted(store, req.id) ==>
      (s.response.Ok? <==> req.item in store[req.id].data)
    ensures req.RemoveItem? && Admitted(store, req.id) && s.response.Ok? ==>
      s.store[req.id].data == store[req.id].data - {req.item}
    ensures req.ClearAll? && req.authorised ==>
      && s.store.Keys == store.Keys
      && (forall id :: id in s.store ==> s.store[id].data == map[])
      && s.response == Ok(StatusOk, Admin.DeletedCount(|Admin.Modified(store)|))
    ensures req.DestroyAll? && req.authorised ==>
      s.store == map[] && s.response == Ok(StatusOk, Admin.DeletedCount(|store|))
    // Signup: 413 over the form cap, 400 for a missing or refused address,
    // otherwise 201 with the digest and at most one new record under it.
    ensures req.SignUp? && !Fits(req.contentLength, Signup.MaxFormLength) ==>
      s == Step(store, Err(PayloadTooLarge))
    ensures req.SignUp? && Fits(req.contentLength, Signup.MaxFormLength) && !Signup.Acceptable(req.email, req.contentLength) ==>
      s == Step(store, Err(BadRequest))
    ensures req.SignUp? ==> (s.response.Ok? <==> Signup.Acceptable(req.email, req.contentLength))
    ensures req.SignUp? && s.response.Ok? ==>
      var hash := md5hex(req.email.value);
      && s.response == Ok(StatusCreated, PublicData("hash", JStr(hash)))
      && s.store.Keys == store.Keys + {hash}
      && (forall k :: k in store ==> s.store[k] == store[k])
      && (hash !in store ==> s.store[hash] == Signup.NewTenant(req.email.value, now))
    ensures (req.ClearAll? || req.DestroyAll?) && !req.authorised ==> s == Step(store, Err(Unauthorized))
  {
    match req
    case ReadDocument(segment) => GetData(store, UserId(segment), now)
    case ReadItem(id, item) => GetItem(store, id, item, now)
    case WriteDocument(segment, verb, contentLength, document) =>
      UpdateData(store, UserId(segment), verb, contentLength, document, now)
    case WriteItem(id, item, verb, contentLength, value) =>
      UpdateItem(store, id, item, verb, contentLength, value, now)
    case ClearDocument(segment) => DeleteData(store, UserId(segment), now)
    case RemoveItem(id, item) => DeleteItem(store, id, item, now)
    case SignUp(email, contentLength) => Signup.CreateUser(store, email, contentLength, now, md5hex)
    case ClearAll(authorised) => Admin.DeleteAll(store, authorised)
    case DestroyAll(authorised) => Admin.ResetAll(store, authorised)
  }

  /** The store after a sequence of requests, handled one at a time. */
  function Replay(store: Store, trace: seq<Event>, md5hex: string -> string): Store
    decreases |trace|
  {
    if |trace| == 0 then store
    else Replay(Handle(store, trace[0].request, trace[0].now, md5hex).store, trace[1..], md5hex)
  }
}

=== FILE: signup.dfy ===
/** `create_user`: `POST /signup` with a form field `email`. The stages run
    in decorator order: the flat 1024-byte guard, the form lookup (a missing
    field is a 400), the address pattern, then an insert keyed by the MD5
    hex digest unless a record with that digest already exists. */
module Signup {
  import opened Optional
  import opened JsonValue
  import opened Http
  import opened Tenants
  import opened SizeGuard
  import opened EmailAddress
  import opened Handlers

  /** The cap of `limit_content_length(1024)` on the signup form. */
  const MaxFormLength: int := 1024

  /** The form carries an address the pattern accepts, within the cap. */
  ghost predicate Acceptable(email: Option<string>, contentLength: Option<nat>) {
    Fits(contentLength, MaxFormLength) && email.Some? && Matches(email.value)
  }

  /** The record `insert_one` writes: the address verbatim, empty data, the
      creation time and no `last-Request`. */
  function NewTenant(email: string, now: nat): (t: Tenant)
    ensures t.email == email && t.data == map[] && t.createdAt == now && t.lastRequest.None?
  {
    Tenant(email, map[], now, None)
  }

  /** The signup handler. `md5hex` stands for `md5(email.encode('utf-8')).hexdigest()`. */
  function CreateUser(
    store: Store, email: Option<string>, contentLength: Option<nat>, now: nat,
    md5hex: string -> string): (s: Step)
    ensures !Fits(contentLength, MaxFormLength) ==> s == Step(store, Err(PayloadTooLarge))
    ensures Fits(contentLength, MaxFormLength) && !Acceptable(email, contentLength) ==>
      s == Step(store, Err(BadRequest))
    ensures s.response.Ok? <==> Acceptable(email, contentLength)
    ensures Acceptable(email, contentLength) ==>
      var hash := md5hex(email.value);
      && s.response == Ok(StatusCreated, PublicData("hash", JStr(hash)))
      && s.store.Keys == store.Keys + {hash}
      && (forall k :: k in store ==> s.store[k] == store[k])
      && (hash !in store ==> s.store[hash] == NewTenant(email.value, now))
  {
    match LimitContentLength(MaxFormLength, Flat, contentLength)
    case Abort(code) => Step(store, Err(code))
    case Proceed(_) =>
      if email.None? || !Matches(email.value) then Step(store, Err(BadRequest))
      else
        var hash := md5hex(email.value);
        var store' := if hash in store then store else store[hash := NewTenant(email.value, now)];
        Step(store', Ok(StatusCreated, PublicData("hash", JStr(hash))))
  }
}

=== FILE: size_guard.dfy ===
/** `limit_content_length(max_length, accumulative)`: rejects a request whose
    declared Content-Length exceeds the free space.

    In the accumulative mode the free space is computed with Python's `len`:
    `len(data)` is the number of top-level keys and `len(data[item])` is a
    string length, an array length or a key count, so the budget is not a
    byte count of the stored document. */
module SizeGuard {
  import opened Optional
  import opened JsonValue
  import opened Http

  /** Flat: the budget is `max_length` itself. Accumulative: the budget
      depends on the tenant's current data and the key being written. */
  datatype Budget = Flat | Accumulative(data: map<string, Json>, item: string)

  /** `free_space`; None when `len(data[item])` raises a TypeError. */
  function FreeSpace(maxLength: int, mode: Budget): (r: Option<int>)
    ensures mode.Flat? ==> r == Some(maxLength)
    ensures r.None? <==> mode.Accumulative? && mode.item in mode.data && PyLen(mode.data[mode.item]).None?
    ensures r.Some? && mode.Accumulative? ==> r.value >= maxLength - |mode.data|
    ensures r.Some? && mode.Accumulative? && mode.item !in mode.data ==> r.value == maxLength - |mode.data|
  {
    match mode
    case Flat => Some(maxLength)
    case Accumulative(data, item) =>
      if item in data then
        match PyLen(data[item])
        case None => None
        case Some(n) => Some(maxLength - |data| + n)
      else
        Some(maxLength - |data|)  // len("") == 0
  }

  /** `cl is None or cl <= free_space` */
  predicate Fits(contentLength: Option<nat>, freeSpace: int) {
    contentLength.None? || contentLength.value <= freeSpace
  }

  /** The guard as a request stage. The free space is computed before the
      Content-Length is looked at, so the TypeError happens even when the
      header is absent. */
  function LimitContentLength(maxLength: int, mode: Budget, contentLength: Option<nat>): (r: Check<()>)
    // The first three clauses are corollaries of the three iffs below,
    // kept as the short statements a caller usually needs.
    ensures r.Abort? ==> r.code == PayloadTooLarge || r.code == InternalError
    ensures contentLength.None? ==> r != Abort(PayloadTooLarge)
    ensures mode.Flat? ==> r != Abort(InternalError)
    ensures FreeSpace(maxLength, mode).Some? ==>
      (r == Abort(PayloadTooLarge) <==> contentLength.Some? && contentLength.value > FreeSpace(maxLength, mode).value)
    ensures r == Abort(InternalError) <==> FreeSpace(maxLength, mode).None?
    ensures r.Proceed? <==> FreeSpace(maxLength, mode).Some? && Fits(contentLength, FreeSpace(maxLength, mode).value)
  {
    match FreeSpace(maxLength, mode)
    case None => Abort(InternalError)
    case Some(free) =>
      if Fits(contentLength, free) then Proceed(()) else Abort(PayloadTooLarge)
  }

  /** Flat mode rejects with 413 exactly when a length is declared and exceeds
      the cap, and otherwise lets the request through. */
  lemma FlatGuardIff(maxLength: int, contentLength: Option<nat>)
    ensures LimitContentLength(maxLength, Flat, contentLength) ==
      if contentLength.Some? && contentLength.value > maxLength then Abort(PayloadTooLarge) else Proceed(())
  {
  }

  /** Accumulative mode on a key not yet present: the budget is the cap
      minus the number of keys already stored. */
  lemma NewKeyBudget(maxLength: int, data: map<string, Json>, item: string, contentLength: Option<nat>)
    requires item !in data
    ensures FreeSpace(maxLength, Accumulative(data, item)) == Some(maxLength - |data|)
    ensures LimitContentLength(maxLength, Accumulative(data, item), contentLength) == Abort(PayloadTooLarge)
      <==> contentLength.Some? && contentLength.value > maxLength - |data|
    ensures LimitContentLength(maxLength, Accumulative(data, item), contentLength).Proceed?
      <==> Fits(contentLength, maxLength - |data|)
  {
  }

  /** Accumulative mode on an existing key with a length: the budget grows by
      that length, so it is never smaller than the budget of a new key. */
  lemma ExistingKeyBudget(maxLength: int, data: map<string, Json>, item: string, contentLength: Option<nat>)
    requires item in data && PyLen(data[item]).Some?
    ensures FreeSpace(maxLength, Accumulative(data, item)) == Some(maxLength - |data| + PyLen(data[item]).value)
    ensures FreeSpace(maxLength, Accumulative(data, item)).value >= maxLength - |data|
    ensures LimitContentLength(maxLength, Accumulative(data, item), contentLength) == Abort(PayloadTooLarge)
      <==> contentLength.Some? && contentLength.value > maxLength - |data| + PyLen(data[item]).value
  {
  }

  /** Accumulative mode on a key holding a number, a boolean or null fails
      with 500 whatever the Content-Length. */
  lemma UnsizedItemFails(maxLength: int, data: map<string, Json>, item: string, contentLength: Option<nat>)
    requires item in data && (data[item].JNum? || data[item].JBool? || data[item].JNull?)
    ensures LimitContentLength(maxLength, Accumulative(data, item), contentLength) == Abort(InternalError)
  {
  }

  /** A length the guard admits stays admitted when it shrinks. */
  lemma GuardMonotone(maxLength: int, mode: Budget, small: nat, large: nat)
    requires small <= large
    requires LimitContentLength(maxLength, mode, Some(large)).Proceed?
    ensures LimitContentLength(maxLength, mode, Some(small)).Proceed?
  {
  }

  /** The budget counts keys and lengths, not bytes: with one 1000-character
      string stored under "a" and a cap of 1024, a 1020-byte write to the new
      key "b" is admitted (1020 <= 1024 - 1), although the stored document
      and the new value together exceed 1024 bytes. */
  lemma BudgetCountsKeysNotBytes(stored: string)
    requires |stored| == 1000
    ensures LimitContentLength(1024, Accumulative(map["a" := JStr(stored)], "b"), Some(1020)).Proceed?
  {
    NewKeyBudget(1024, map["a" := JStr(stored)], "b", Some(1020));
  }

  /** Overwriting reclaims the old value's length: with one 1000-character
      string stored under "a" and a cap of 1024, a 1024-byte write to "a"
      itself is admitted (1024 <= 1024 - 1 + 1000), while the same write to
      the new key "b" is refused (1024 > 1024 - 1). */
  lemma OverwriteReclaimsOldLength(stored: string)
    requires |stored| == 1000
    ensures LimitContentLength(1024, Accumulative(map["a" := JStr(stored)], "a"), Some(1024)).Proceed?
    ensures LimitContentLength(1024, Accumulative(map["a" := JStr(stored)], "b"), Some(1024)) == Abort(PayloadTooLarge)
  {
    ExistingKeyBudget(1024, map["a" := JStr(stored)], "a", Some(1024));
    NewKeyBudget(1024, map["a" := JStr(stored)], "b", Some(1024));
  }
}

=== FILE: tenants.dfy ===
/** Tenant records and the collection that holds them. The collection is a
    map from the `hash` field (the fingerprint) to the rest of the record,
    so a fingerprint names at most one record. Every store operation below
    is one atomic Mongo update, written as one map update. */
module Tenants {
  import opened Optional
  import opened JsonValue

  /** One document of the collection, without its `hash` (the map key) and
      its `_id`. `lastRequest` is absent until the first fingerprint route
      touches the record. */
  datatype Tenant = Tenant(
    email: string,
    data: map<string, Json>,
    createdAt: nat,
    lastRequest: Option<nat>)

  type Store = map<string, Tenant>

  /** `store'` differs from `store` at most in the record of `id`. */
  ghost predicate ChangesOnly(store: Store, store': Store, id: string) {
    && store'.Keys == store.Keys
    && forall k :: k in store && k != id ==> store'[k] == store[k]
  }

  /** The fields no tenant-scoped route ever writes. */
  ghost predicate SameIdentity(t: Tenant, t': Tenant) {
    t'.email == t.email && t'.createdAt == t.createdAt
  }

  /** `store'` is `store` after a request on `id` at time `now` that may also
      have written the tenant's data. */
  ghost predicate Accessed(store: Store, store': Store, id: string, now: nat) {
    && id in store
    && ChangesOnly(store, store', id)
    && SameIdentity(store[id], store'[id])
    && store'[id].lastRequest == Some(now)
  }

  /** `store'` is `store` after the access of `validate_userid` at time `now`. */
  ghost predicate Touched(store: Store, store': Store, id: string, now: nat) {
    Accessed(store, store', id, now) && store'[id].data == store[id].data
  }

  /** `$set: {'last-Request': now}` on the record of `id`. */
  function Touch(store: Store, id: string, now: nat): (store': Store)
    requires id in store
    ensures Touched(store, store', id, now)
  {
    store[id := store[id].(lastRequest := Some(now))]
  }

  /** `$set: {'data': data}` on the record of `id`. */
  function SetData(store: Store, id: string, data: map<string, Json>): (store': Store)
    requires id in store
    ensures ChangesOnly(store, store', id)
    ensures SameIdentity(store[id], store'[id])
    ensures store'[id].lastRequest == store[id].lastRequest
    ensures store'[id].data == data
  {
    store[id := store[id].(data := data)]
  }

  /** `$set: {'data.' + item: value}`: creates the key or overwrites it. */
  function SetItem(store: Store, id: string, item: string, value: Json): (store': Store)
    requires id in store
    ensures ChangesOnly(store, store', id)
    ensures SameIdentity(store[id], store'[id])
    ensures store'[id].lastRequest == store[id].lastRequest
    ensures store'[id].data.Keys == store[id].data.Keys + {item}
    ensures store'[id].data[item] == value
    ensures forall k :: k in store[id].data && k != item ==> store'[id].data[k] == store[id].data[k]
  {
    SetData(store, id, store[id].data[item := value])
  }

  /** `$unset: {'data.' + item: ""}`: removes the key if present. */
  function UnsetItem(store: Store, id: string, item: string): (store': Store)
    requires id in store
    ensures ChangesOnly(store, store', id)
    ensures SameIdentity(store[id], store'[id])
    ensures store'[id].lastRequest == store[id].lastRequest
    ensures store'[id].data.Keys == store[id].data.Keys - {item}
    ensures forall k :: k in store'[id].data ==> store'[id].data[k] == store[id].data[k]
  {
    SetData(store, id, store[id].data - {item})
  }
}
